=== FILE: README.md ===
# Chess board controller — a Dafny model

This project models the game controller of a browser chess board (`script.js`).
The board is played by click-to-move, optionally against a UCI engine running in a
Web Worker. The page keeps a game clock and offers move-by-move replay, undo, a new
game and PGN import. The controller's state is the following:

- the mainline (the SAN list shown as move pills);
- the view index into the mainline: live when it equals the mainline's length, review otherwise;
- the two clocks, the increment and whether the one-second timer is set;
- the pending promotion;
- the selected square;
- whether a best-move resolver is waiting for the engine.

Each DOM handler is a pure transition on an immutable `Controller` record.

The chess rules library (chess.js) is not part of this model. It appears as an
abstract oracle, `ChessOracle.Rules`, whose function-valued fields give the
following:

- the side to move in a FEN position;
- the piece on a square of a FEN position;
- whether a game is over (decided on the whole game, since threefold repetition
  depends on the positions passed through);
- whether a move is accepted in a position, and the position and SAN it leads to;
- the result of loading a PGN text: the loaded game, or, when loading fails,
  the game the library is left holding.

A game is its start position plus the applied plies. Undo pops the last ply, and
the history is the list of the plies' SANs. Nothing is assumed about chess itself.

Modules, leaf first:

- `Wrappers`: `Option`, `Min`, `Max`.
- `ChessOracle`: the rules oracle, `Game`, `ApplyMove`, `UndoPly`, `History`.
- `Text`: `startsWith`, `indexOf`, `split(" ")[1]` and `trim`.
- `TimeFormat`: `formatTime` and a parser for its output.
- `Settings`: `clamp`, the search-depth bound and the difficulty presets.
- `Uci`: the best-move line and `uciToChessJsMove`.
- `GameClock`: presets, increments and the timer tick.
- `AppState`: the controller state and its invariant `Synced`.
- `Engine`: asking the engine for a move and committing its reply.
- `Handlers`: replay, promotion, `makeMove`, the board click, undo, new game, import, the timer.
- `Session`: every handler as an event; invariants over any sequence of events.

The code has two defects, listed under Findings below. Each transition they
touch exists twice, as written and corrected, and `AppState.Variant` selects one.
`Session.Step` runs the whole page under either variant: `AsWritten` is
`script.js` as it stands, `Corrected` is the evidently intended program. The
session invariants are proved for both. Under `AsWritten`, the move-list
invariant needs the extra condition that no import fails.

Each handler runs to completion before the next event. The code after
`await getBestMoveFromStockfish(...)` runs as a microtask right after the message
handler that resolved it. Resolving the wait and committing the engine's move are
therefore one transition (`Engine.OnEngineLine`).

Points where the code behaves in ways a reader might not expect; the model follows the code:

- `onSquareClick` has no guard for a pending promotion. While the modal is open, the
  board still accepts a first click (the modal's overlay is the only barrier, and
  that is CSS).
- Nothing prevents a second engine request while one is outstanding.
  `getBestMoveFromStockfish` overwrites the resolver.
- Undo, new game and import do not cancel a waiting resolver.
- New game does not clear a pending promotion.
- Review mode is not "reconstructed from the start position".
- A clock can go below zero when the preset gives no time at all, because the tick
  decrements before it checks.

## Model

| member | source | states |
|---|---|---|
| TimeFormat.FormatTime | script.js:62-67 | the text is at least two digits, a colon, and exactly two digits |
| TimeFormat.FormatTimeRoundTrip | script.js:62-67 | reading the text back (minutes × 60 + seconds, seconds below 60) gives `max(0, sec)` |
| TimeFormat.FormatTimeNonPositive | script.js:63 | zero and negative times render as "00:00" |
| TimeFormat.FormatTimeMinutes | script.js:64 | minutes are zero-padded to at least two digits and have no other leading zero |
| TimeFormat.FormatTimeInjective | script.js:62-67 | distinct non-negative times render differently |
| TimeFormat.DecimalStringValue | script.js:64-65 | `String(n)` denotes n and has no superfluous leading zero |
| Settings.Clamp | script.js:166-168 | the result lies in [lo, hi], is n when n is in range, and is the violated bound otherwise (lo when lo > hi) |
| Settings.SearchDepth | script.js:451 | the depth sent is always 1..20; NaN and 0 fall back to 12; in-range values pass unchanged; out-of-range values go to the nearer bound |
| Settings.DifficultyPreset | script.js:204-218 | easy is (8, 5), hard is (16, 18), any other level is (12, 10); depth within 1..20, skill within 0..20 |
| Settings.PresetDepthIsSearched | script.js:216 | a preset's depth written to the depth field survives the depth bound unchanged |
| Uci.UciToMove | script.js:436-442 | from is characters 0-1 and to is 2-3, each cut short by a short input; promotion is the fifth character, or "q" when there is none |
| Uci.UciRoundTrip | script.js:436-442 | reading the UCI text of a well-formed move gives the move back, with "q" for non-promotions |
| Uci.UciReadsFiveCharacters | script.js:436-442 | the conversion keeps exactly the first five characters of the input |
| Uci.BestMove | script.js:136 | `split(" ")[1]` is undefined iff the line has no space, and never contains a space |
| Uci.BestMoveOfReply | script.js:135-136 | "bestmove M ..." is recognised as a best-move line naming M |
| Uci.InfoIsNotBestMove | script.js:126-135 | a progress line never resolves a search |
| GameClock.ApplyPreset | script.js:102-109 | both sides get the preset's seconds, the increment is set, and the timer runs; the clocks are sane iff the preset is positive |
| GameClock.ApplyIncrement | script.js:366-371 | with increment <= 0 nothing changes; otherwise only the mover gains exactly the increment |
| GameClock.Tick | script.js:81-98 | no tick without a timer; a finished game stops it; review skips it; otherwise only the side to move loses one second, the timer stops iff a clock is at or below zero, and the alert names White iff White is out; sanity is preserved and only the side to move can lose on time |
| GameClock.TicksCountDown | script.js:81-98 | n live ticks take n seconds from the side to move only; once its clock reaches zero the timer stops and exactly one loss on time (that side's) is announced |
| GameClock.StoppedClockIgnoresTicks | script.js:93-94 | after the timer stops, further ticks change nothing and announce nothing |
| GameClock.FiveTicksFromFiveMinutes | script.js:57-58 | five ticks from 300/300 with White on move leave White 295, Black 300 |
| GameClock.OneMinuteRunsOut | script.js:93-97 | on a one-minute preset, 60 or more ticks give exactly one forfeit, White's, with White at 0 |
| Engine.RequestEngineMove | script.js:444-452 | a search for the live position at the bounded depth is requested iff the engine plays, the game is not over, and the engine is on move; nothing else changes |
| Engine.CommitEngineMoveAsWritten | script.js:453-463 | a "no move" reply changes nothing. Any other reply credits the side to move and jumps live, whether or not the move was accepted. The game becomes the library's new game when the move is accepted and stays as it was otherwise. The selection, pending promotion and resolver are untouched |
| Engine.RejectedEngineMoveStillCredited | script.js:455-458 | a rejected engine move leaves the game as it was but still earns the increment in the as-written commit, unlike the checked commit |
| Engine.CommitEngineMove | script.js:453-463 | "no move" and rejected replies change nothing; an accepted one appends its SAN, goes live and credits the side that moved |
| Engine.CommitsAgreeOnAcceptedMove | script.js:453-463 | the two commits coincide on every "no move" reply and every accepted move, so the defect shows only on a rejected move |
| Engine.OnEngineLine | script.js:123-143 | non-best-move lines and lines arriving with no resolver change nothing; a best-move line clears the resolver and commits its move with the variant's commit; either commit keeps the mainline equal to the history and a running clock positive |
| Engine.BestMoveResolvesOnce | script.js:137-141 | the resolver is consumed once: delivering the same line again changes nothing more |
| Handlers.OnDifficultyChange | script.js:204-219 | the level's depth goes into the depth field, so the next search uses exactly that depth; no other control changes |
| Handlers.Startup | script.js:567-569 | page load (after `applyDifficultyPreset` at script.js:220) writes the level's depth into the depth field and gives an empty, live, synchronised game with the preset on the clocks; when the engine is on move, a search of the start position at the level's depth is started, and otherwise none is |
| Handlers.GoToIndex | script.js:300-305 | the view index becomes i clamped into [0, length]; the selection is cleared; the mainline and everything else are unchanged |
| Handlers.Replay | script.js:307-310 | "to start" shows ply 0, "back" one ply earlier but never before the start, "forward" one ply later but never past the live position, "to end" the live position; nothing but the view index and the selection changes |
| Handlers.GoToIndexIdempotent | script.js:300-305 | navigating to the same index twice is navigating once |
| Handlers.BackThenForward | script.js:308-309 | back then forward returns to the same ply, with the mainline untouched |
| Handlers.ShowPly | script.js:287-292 | a move pill shows the position after its ply, within the mainline |
| Handlers.ShowPlyIsGoToIndex | script.js:287-292 | a move-pill click equals `goToIndex(i + 1)` |
| Handlers.IsPromotionMove | script.js:328-336 | true iff a pawn stands on `from` and `to`'s rank is its colour's promotion rank (8 for White, 1 for Black) |
| Handlers.ClosePromotionModal | script.js:343-346 | dismissing the modal clears the pending promotion and commits nothing |
| Handlers.MakeMove | script.js:373-389 | returns true iff the library accepts the move; rejected: only the selection is cleared; accepted: the SAN is appended to the mainline, the view goes live, the side that was on move is credited, and the engine is asked iff it is now on move |
| Handlers.ChoosePromotion | script.js:348-356 | with none pending, nothing happens. With a pending move, the gate closes whatever the library says. An accepted move is committed with the chosen piece: the game and mainline follow the library, the view goes live, the side that moved is credited, and the engine is asked iff it is now on move. A rejected move only closes the gate and clears the selection |
| Handlers.OnSquareClick | script.js:394-419 | in review nothing happens; a first click selects only a piece of the side to move that the engine does not own; a second click on a promotion opens the gate without committing; any other second click commits with "q" |
| Handlers.PromotionGate | script.js:410-416 | selecting a pawn and clicking its promotion square commits nothing; choosing a piece commits exactly that promotion, if accepted, and closes the gate |
| Handlers.OrdinaryMoveBypassesGate | script.js:410-418 | a non-promotion move never opens the gate and changes the game iff the library accepts it with "q" |
| Handlers.UndoLastMove | script.js:487-507 | no-op on an empty mainline; otherwise it takes back one ply, or two when the engine plays and would be on move after the first (only one when the game had just one ply, since the second undo finds nothing); the mainline equals the history, the view is live, and the clocks are untouched |
| Handlers.UndoTakesBackHumanMove | script.js:487-507 | committing a human move and then pressing undo restores the game and the mainline |
| Handlers.UndoTakesBackMovePair | script.js:487-507 | against the engine, after a human move and the engine's reply, one undo restores the position before the human move |
| Handlers.NewGame | script.js:509-521 | start position, empty mainline, view 0, the preset on both clocks; a search is started iff the engine is on move; a pending promotion survives |
| Handlers.ImportPgnAsWritten | script.js:530-547 | blank text changes nothing; a rejected PGN leaves the library's partial game in place with the old mainline and view; a loaded PGN behaves as the corrected import |
| Handlers.FailedImportDesyncs | script.js:534-538 | a failed import as written breaks the mainline/history invariant whenever the library's leftover game has a different history; the corrected import keeps it |
| Handlers.ImportPgn | script.js:530-547 | blank text or a PGN the library cannot load changes nothing; a loaded game replaces the mainline, goes live and keeps the clocks, and the engine is asked for a reply iff it is on move |
| Handlers.OnAiColorChange | script.js:466-470 | the selection is cleared. When the engine is now on move, a search of the live position at the bounded depth starts; otherwise the resolver is untouched |
| Handlers.ApplyTimePreset | script.js:102-111 | both clocks get the preset, the timer runs, and nothing else changes |
| Handlers.ClockTick | script.js:81-98 | only the clock changes, and never its increment. With no timer set, or in review of an unfinished game, nothing happens. A finished game stops the timer. Live, only the side to move loses a second; the timer keeps running iff both clocks stay above zero, an alert is raised exactly when it stops, and the alert names White iff White's clock is at or below zero |
| Session.Step | script.js:383-384 | every event keeps the mainline equal to the history with the view in range (as written: unless it is a failed import), and keeps running clocks positive under positive presets |
| Session.RunKeepsSynced | script.js:383-384 | after any sequence of events the mainline equals the history (the same length) and the view index is in range: always for the corrected page, and for the page as written when no import fails |
| Session.RunKeepsClockSane | script.js:93-94 | after any sequence of events with positive presets, a running clock never shows a side at or below zero |
| Session.StartupIsSynced | script.js:567-569 | the page as loaded satisfies both invariants |
| Session.ReviewIsReadOnly | script.js:264-267 | in review, board clicks are ignored and timer firings move neither clock |
| Session.FirstMoveScenario | script.js:373-389 | new game, then a human e2-e4 with the engine off: one SAN in the mainline, view 1, Black's clock unchanged, White's credited |

## Left out

- Rendering and DOM work are presentation, so they are not modelled. This covers `renderBoard`, `renderMoveList`, `highlightMoves`, `clearHighlights`, `renderClocks`, the board flip, the modal's CSS toggling, alerts, the PGN export and clear buttons, and the clipboard copy (script.js:549-558).
- `buildTempGame` (script.js:225-232) is left out. It replays the mainline onto the live position rather than the start position, so it has no "review shows the historical position" property to state.
- `stockfish.worker.js` only forwards messages. Engine lines are modelled as events carrying any text.
- The commands sent to the engine are not modelled, except the position and depth of a move request. This covers `sfSend`, the analyze button (script.js:475-482) and the skill level sent by the difficulty preset. An analyze reply reaching a waiting resolver is handled like any other best-move line.
- `setInterval` timing: each timer firing is an event. The single-timer discipline (`stopClock` before `setInterval`) shows only as the `running` flag.
- `parseInfoLine` and `updateEvalUI` are left out because they are display-only floating-point formatting.
- The rules of chess, SAN and PGN parsing are left out. chess.js is not part of this model, so these are the abstract oracle. The model follows chess.js 0.x (the version whose `game_over` and `load_pgn` the code calls): `load_pgn` resets the game before parsing and does not restore it on failure. The game it is left holding is arbitrary in the model.
- The stray `}` at script.js:572 and `renderEmptyBoard` (script.js:574-597) are left out.
- Settings.SearchDepth: the depth field is modelled as an integer or NaN. A fractional number, which the code would pass on unrounded, is not modelled.
- Handlers.ApplyTimePreset: the "seconds|increment" option is taken as already parsed numbers. `Number` parsing and NaN presets are not modelled.
- TimeFormat.FormatTime: takes whole seconds only. `Math.floor` of a fractional time is not modelled, because the clocks only ever hold integers.
- Handlers.ImportPgn: `trim` is modelled for the common whitespace characters only. The other Unicode space separators are not modelled.

## Findings

| source | as written | input that shows it | evidently intended | confidence | as-written member | corrected member |
|---|---|---|---|---|---|---|
| script.js:455-461 | the result of `game.move(uciToChessJsMove(best))` is ignored. The increment goes to the side to move and the view jumps live even when the move is rejected | increment > 0; White moves; Black (the engine) is thinking; undo is pressed, so White is on move again; then "bestmove e7e5" arrives, a Black move the library rejects. White is credited the increment | commit only an accepted move, as `makeMove` does at script.js:379 | medium, not executed | Engine.CommitEngineMoveAsWritten, Engine.RejectedEngineMoveStillCredited | Engine.CommitEngineMove |
| script.js:534-538 | a failed `game.load_pgn(pgn)` returns after the alert without restoring the game, while `mainlineSAN` and `viewIndex` keep describing the old game | any game other than 1. e4 e5 is on the board; "1. e4 e5 2. Ke3" is imported and chess.js resets, plays e4 and e5, and fails on Ke3. The library now holds two plies while the move list still shows the old game | a failed import leaves the game as it was (load into a scratch game, or restore) | medium, not executed; rests on chess.js 0.x resetting in `load_pgn`, and chess.js is not part of this model | Handlers.ImportPgnAsWritten, Handlers.FailedImportDesyncs | Handlers.ImportPgn |

=== FILE: app_state.dfy ===
/** The controller's state (script.js:41-60, 121): everything the handlers read and write besides the DOM. */
module AppState {
  import opened Wrappers
  import opened ChessOracle
  import opened GameClock

  /** `pendingPromotion`: the move waiting for a piece choice. */
  datatype PromotionTarget = PromotionTarget(from: Square, to: Square)

  /**
   * A set `bestMoveResolver`, with the position and depth that were sent to
   * the engine when it was set.
   */
  datatype SearchRequest = SearchRequest(fen: Fen, depth: int)

  /**
   * The controls the handlers read when they run: the "play vs AI" box, the
   * engine's colour, the depth field (`None` when it does not hold a
   * number), and the selected time preset as numbers.
   */
  datatype Config = Config(
    playVsAI: bool,
    aiColor: Color,
    depthField: Option<int>,
    presetSeconds: int,
    presetIncrement: int
  )

  datatype Controller = Controller(
    game: Game,
    mainline: seq<San>,
    viewIndex: int,
    selected: Option<Square>,
    pending: Option<PromotionTarget>,
    clock: Clock,
    awaiting: Option<SearchRequest>
  )

  /** The view shows the position after the last ply rather than an earlier one. */
  predicate IsLive(s: Controller) {
    s.viewIndex == |s.mainline|
  }

  /** The move list mirrors the library's history and the view index lies within it. */
  predicate Synced(s: Controller) {
    s.mainline == History(s.game) && 0 <= s.viewIndex <= |s.mainline|
  }

  /** The controls and the controller state together. */
  datatype World = World(cfg: Config, ctl: Controller)

  /**
   * Which reading of the two defects recorded under Findings in README.md a
   * transition follows: the code as written, or the evidently intended one.
   */
  datatype Variant = AsWritten | Corrected
}

=== FILE: chess_oracle.dfy ===
/**
 * The chess rules library the controller delegates to, kept abstract.
 *
 * A position is identified by its FEN text. Everything the library knows
 * about a position or a game (whose turn it is, which piece stands on a square,
 * whether the game is over, which moves it accepts, the position and SAN a
 * move leads to, how a PGN text parses) is a function-valued field of
 * `Rules`, about which nothing is assumed. A game is its starting position
 * plus the plies applied to it, which is how the library keeps its own
 * history: undoing pops the last ply and the history is the plies' SANs.
 */
module ChessOracle {
  import opened Wrappers

  datatype Color = White | Black

  function Opponent(c: Color): (o: Color)
    ensures o != c
  {
    if c == White then Black else White
  }

  datatype Kind = Pawn | Knight | Bishop | Rook | Queen | King

  datatype Piece = Piece(color: Color, kind: Kind)

  /** A square name such as "e4". */
  type Square = string

  /** A position in Forsyth-Edwards Notation. */
  type Fen = string

  /** A move in Standard Algebraic Notation, as the history lists it. */
  type San = string

  /** The argument of the library's `move({from, to, promotion})`. */
  datatype MoveRequest = MoveRequest(from: Square, to: Square, promotion: string)

  /** One applied ply: what was asked, its SAN, and the position it led to. */
  datatype Ply = Ply(request: MoveRequest, san: San, after: Fen)

  datatype Game = Game(start: Fen, plies: seq<Ply>)

  /**
   * The outcome of `load_pgn(text)`. The library resets its game before
   * parsing and gives up at the first header or move it cannot use, without
   * restoring what it held before; `Rejected` carries the game it is left
   * holding then, about which nothing is assumed.
   */
  datatype PgnLoad = Loaded(game: Game) | Rejected(left: Game)

  datatype Rules = Rules(
    turn: Fen -> Color,
    pieceAt: (Fen, Square) -> Option<Piece>,
    isOver: Game -> bool,
    accepts: (Fen, MoveRequest) -> bool,
    play: (Fen, MoveRequest) -> Fen,
    san: (Fen, MoveRequest) -> San,
    loadPgn: string -> PgnLoad
  )

  const StartFen: Fen := "rnbqkbnr/pppppppp/8/8/8/8/PPPPPPPP/RNBQKBNR w KQkq - 0 1"

  /** `new Chess()` and `reset()`: the standard start position, no plies. */
  const InitialGame: Game := Game(StartFen, [])

  /** The live position: after the last ply, or the start when there is none. */
  function Position(g: Game): Fen {
    if |g.plies| == 0 then g.start else g.plies[|g.plies| - 1].after
  }

  function Turn(r: Rules, g: Game): Color {
    r.turn(Position(g))
  }

  function PieceOn(r: Rules, g: Game, sq: Square): Option<Piece> {
    r.pieceAt(Position(g), sq)
  }

  /**
   * `game_over()`: decided on the whole game, since threefold repetition
   * depends on the positions passed through and not only the current one.
   */
  predicate IsOver(r: Rules, g: Game) {
    r.isOver(g)
  }

  /** `history()`: the SAN of every ply, oldest first. */
  function History(g: Game): (h: seq<San>)
    ensures |h| == |g.plies|
    ensures forall i :: 0 <= i < |h| ==> h[i] == g.plies[i].san
  {
    seq(|g.plies|, i requires 0 <= i < |g.plies| => g.plies[i].san)
  }

  /** `move(m)`: a new ply when the library accepts `m`, `None` (null) otherwise. */
  function ApplyMove(r: Rules, g: Game, m: MoveRequest): (res: Option<Game>)
    ensures res.Some? <==> r.accepts(Position(g), m)
    ensures res.Some? ==>
      && res.value.start == g.start
      && res.value.plies == g.plies + [Ply(m, r.san(Position(g), m), r.play(Position(g), m))]
  {
    var p := Position(g);
    if r.accepts(p, m) then Some(Game(g.start, g.plies + [Ply(m, r.san(p, m), r.play(p, m))])) else None
  }

  /** `undo()`: drops the last ply; nothing happens on an empty history. */
  function UndoPly(g: Game): (u: Game)
    ensures |g.plies| == 0 ==> u == g
    ensures |g.plies| > 0 ==> u.start == g.start && u.plies == g.plies[..|g.plies| - 1]
  {
    if |g.plies| == 0 then g else Game(g.start, g.plies[..|g.plies| - 1])
  }

  /** Undo takes back exactly the ply an accepted move added. */
  lemma UndoAfterMove(r: Rules, g: Game, m: MoveRequest)
    requires r.accepts(Position(g), m)
    ensures UndoPly(ApplyMove(r, g, m).value) == g
  {
    var g' := ApplyMove(r, g, m).value;
    assert g'.plies[..|g'.plies| - 1] == g.plies;
  }

  /** An accepted move appends its SAN to the history and leads to `play`'s position. */
  lemma HistoryAfterMove(r: Rules, g: Game, m: MoveRequest)
    requires r.accepts(Position(g), m)
    ensures History(ApplyMove(r, g, m).value) == History(g) + [r.san(Position(g), m)]
    ensures Position(ApplyMove(r, g, m).value) == r.play(Position(g), m)
  {
  }
}

=== FILE: engine.dfy ===
/**
 * Playing the engine's moves (script.js:121-143, 424-464): asking for a
 * move, and applying the answer when the best-move line arrives.
 */
module Engine {
  import opened Wrappers
  import opened ChessOracle
  import opened GameClock
  import opened Settings
  import opened Uci
  import opened AppState

  /** The guards of `maybeMakeAIMove` (script.js:445-449): the engine plays and is on move. */
  predicate EngineToMove(r: Rules, cfg: Config, g: Game) {
    cfg.playVsAI && !IsOver(r, g) && Turn(r, g) == cfg.aiColor
  }

  /**
   * The part of `maybeMakeAIMove` before its `await`: when the engine is on
   * move, the live position is sent with the bounded depth and a resolver
   * is set, replacing any earlier one; otherwise nothing happens.
   */
  function RequestEngineMove(r: Rules, cfg: Config, s: Controller): (t: Controller)
    ensures t.(awaiting := s.awaiting) == s
    ensures EngineToMove(r, cfg, s.game) ==>
      t.awaiting == Some(SearchRequest(Position(s.game), SearchDepth(cfg.depthField)))
    ensures EngineToMove(r, cfg, s.game) ==> MinDepth <= t.awaiting.value.depth <= MaxDepth
    ensures !EngineToMove(r, cfg, s.game) ==> t == s
  {
    if EngineToMove(r, cfg, s.game) then
      s.(awaiting := Some(SearchRequest(Position(s.game), SearchDepth(cfg.depthField))))
    else s
  }

  /** `!best || best === "(none)"`: the reply carries no move. */
  predicate NoMove(best: Option<string>) {
    best.None? || best.value == "" || best.value == "(none)"
  }

  /**
   * The part of `maybeMakeAIMove` after its `await`, as written
   * (script.js:452-461): the move is handed to the library without looking
   * at the result, and the increment, the move list and the live view
   * follow regardless. The game changes only when the library accepts the
   * move.
   */
  function CommitEngineMoveAsWritten(r: Rules, s: Controller, best: Option<string>): (t: Controller)
    ensures NoMove(best) ==> t == s
    ensures !NoMove(best) ==>
      var m := UciToMove(best.value);
      && t.game == (if r.accepts(Position(s.game), m) then ApplyMove(r, s.game, m).value else s.game)
      && Credited(s.clock, t.clock, Turn(r, s.game))
      && t.mainline == History(t.game) && IsLive(t)
      && t.selected == s.selected && t.pending == s.pending && t.awaiting == s.awaiting
  {
    if NoMove(best) then s
    else
      var mover := Turn(r, s.game);
      var g := match ApplyMove(r, s.game, UciToMove(best.value))
        case Some(g') => g'
        case None => s.game;
      var h := History(g);
      s.(game := g, clock := ApplyIncrement(s.clock, mover), mainline := h, viewIndex := |h|)
  }

  /**
   * The commit with the library's answer checked, as `makeMove` does
   * (script.js:379): a move the library rejects changes nothing; an
   * accepted one extends the move list, credits the side that moved and
   * jumps to the live view.
   */
  function CommitEngineMove(r: Rules, s: Controller, best: Option<string>): (t: Controller)
    ensures NoMove(best) ==> t == s
    ensures !NoMove(best) && !r.accepts(Position(s.game), UciToMove(best.value)) ==> t == s
    ensures !NoMove(best) && r.accepts(Position(s.game), UciToMove(best.value)) ==>
      var m := UciToMove(best.value);
      && t.game == ApplyMove(r, s.game, m).value
      && t.mainline == History(t.game) && IsLive(t)
      && (Synced(s) ==> t.mainline == s.mainline + [r.san(Position(s.game), m)])
      && Credited(s.clock, t.clock, Turn(r, s.game))
      && t.selected == s.selected && t.pending == s.pending && t.awaiting == s.awaiting
  {
    if NoMove(best) then s
    else
      var m := UciToMove(best.value);
      match ApplyMove(r, s.game, m)
      case None => s
      case Some(g) =>
        HistoryAfterMove(r, s.game, m);
        var h := History(g);
        s.(game := g, clock := ApplyIncrement(s.clock, Turn(r, s.game)), mainline := h, viewIndex := |h|)
  }

  /**
   * An engine reply whose move the library rejects (for instance one
   * computed for the position before an undo) still earns the side to
   * move its increment as written, where the checked commit ignores it.
   */
  lemma RejectedEngineMoveStillCredited(r: Rules, s: Controller, best: Option<string>)
    requires !NoMove(best) && !r.accepts(Position(s.game), UciToMove(best.value))
    requires s.clock.increment > 0
    ensures CommitEngineMoveAsWritten(r, s, best).game == s.game
    ensures Remaining(CommitEngineMoveAsWritten(r, s, best).clock, Turn(r, s.game))
         == Remaining(s.clock, Turn(r, s.game)) + s.clock.increment
    ensures CommitEngineMove(r, s, best) == s
    ensures CommitEngineMoveAsWritten(r, s, best) != CommitEngineMove(r, s, best)
  {
  }

  /**
   * The two commits agree whenever the reply names no move or a move the
   * library accepts: the defect shows only on a rejected move.
   */
  lemma CommitsAgreeOnAcceptedMove(r: Rules, s: Controller, best: Option<string>)
    requires NoMove(best) || r.accepts(Position(s.game), UciToMove(best.value))
    ensures CommitEngineMoveAsWritten(r, s, best) == CommitEngineMove(r, s, best)
  {
  }

  /** The commit the variant `v` runs. */
  function CommitFor(v: Variant, r: Rules, s: Controller, best: Option<string>): Controller {
    if v == AsWritten then CommitEngineMoveAsWritten(r, s, best) else CommitEngineMove(r, s, best)
  }

  /**
   * The worker's message handler (script.js:123-143) with the continuation
   * of the awaited search: progress lines only update the display; a
   * best-move line, when a resolver is set, clears it and then commits the
   * move it names (the continuation runs before any other event). Either
   * commit keeps the move list in step with the library and a sane clock.
   */
  function OnEngineLine(r: Rules, v: Variant, s: Controller, line: string): (t: Controller)
    ensures !IsBestMoveLine(line) || s.awaiting.None? ==> t == s
    ensures IsBestMoveLine(line) && s.awaiting.Some? ==>
      t.awaiting.None? && t == CommitFor(v, r, s.(awaiting := None), BestMove(line))
    ensures Synced(s) ==> Synced(t)
    ensures Sane(s.clock) ==> Sane(t.clock)
  {
    if IsInfoLine(line) then
      InfoIsNotBestMove(line);
      s
    else if IsBestMoveLine(line) && s.awaiting.Some? then
      CommitFor(v, r, s.(awaiting := None), BestMove(line))
    else s
  }

  /** A resolver is used once: the same reply arriving again changes nothing more. */
  lemma BestMoveResolvesOnce(r: Rules, v: Variant, s: Controller, line: string)
    ensures OnEngineLine(r, v, OnEngineLine(r, v, s, line), line) == OnEngineLine(r, v, s, line)
  {
  }
}

=== FILE: game_clock.dfy ===
/**
 * The two countdown clocks (script.js:57-109, 366-371): seconds left per
 * side, the increment, and whether the one-second timer is set.
 */
module GameClock {
  import opened Wrappers
  import opened ChessOracle

  datatype Clock = Clock(white: int, black: int, increment: int, running: bool)

  function Remaining(c: Clock, side: Color): int {
    if side == White then c.white else c.black
  }

  /** `side`'s clock moved by `delta` seconds, nothing else touched. */
  function Adjust(c: Clock, side: Color, delta: int): (d: Clock)
    ensures Remaining(d, side) == Remaining(c, side) + delta
    ensures Remaining(d, Opponent(side)) == Remaining(c, Opponent(side))
    ensures d.increment == c.increment && d.running == c.running
  {
    if side == White then c.(white := c.white + delta) else c.(black := c.black + delta)
  }

  /** While the timer is set, both sides still have time. */
  predicate Sane(c: Clock) {
    c.running ==> c.white > 0 && c.black > 0
  }

  /**
   * `applyTimePreset` once the "seconds|increment" option has been read as
   * numbers: both sides get `seconds`, the increment is set, and the timer
   * is cleared and set again, so exactly one is ever active.
   */
  function ApplyPreset(seconds: int, increment: int): (c: Clock)
    ensures c.running && c.increment == increment
    ensures Remaining(c, White) == seconds && Remaining(c, Black) == seconds
    ensures seconds > 0 <==> Sane(c)
  {
    Clock(seconds, seconds, increment, true)
  }

  /**
   * `after` is `before` with the mover credited for a move: the mover gains
   * the increment when it is positive, and nothing else changes.
   */
  predicate Credited(before: Clock, after: Clock, mover: Color) {
    && Remaining(after, mover) == Remaining(before, mover) + Max(0, before.increment)
    && Remaining(after, Opponent(mover)) == Remaining(before, Opponent(mover))
    && after.increment == before.increment && after.running == before.running
  }

  /**
   * `applyIncrementToSideThatJustMoved(mover)`: a positive increment is
   * added to the mover's clock; otherwise nothing changes.
   */
  function ApplyIncrement(c: Clock, mover: Color): (d: Clock)
    ensures c.increment <= 0 ==> d == c
    ensures c.increment > 0 ==> Remaining(d, mover) == Remaining(c, mover) + c.increment
    ensures Remaining(d, Opponent(mover)) == Remaining(c, Opponent(mover))
    ensures d.increment == c.increment && d.running == c.running
    ensures Credited(c, d, mover)
    ensures Sane(c) ==> Sane(d)
  {
    if c.increment <= 0 then c
    else Adjust(c, mover, c.increment)
  }

  /** A tick's new clock and the side it announces as out of time, if any. */
  datatype TickOutcome = TickOutcome(clock: Clock, flagFell: Option<Color>)

  /**
   * The body of the one-second timer (script.js:81-98). There is no tick
   * unless the timer is set. A finished game stops the timer; review mode
   * (`live` false) skips the tick; otherwise the side to move loses a second
   * and, once either side is at or below zero, the timer stops and the
   * alert names White if White is out, else Black.
   */
  function Tick(c: Clock, over: bool, live: bool, toMove: Color): (t: TickOutcome)
    ensures !c.running || (!over && !live) ==> t == TickOutcome(c, None)
    ensures c.running && over ==> t == TickOutcome(c.(running := false), None)
    ensures c.running && !over && live ==>
      && Remaining(t.clock, toMove) == Remaining(c, toMove) - 1
      && Remaining(t.clock, Opponent(toMove)) == Remaining(c, Opponent(toMove))
      && t.clock.increment == c.increment
      && (t.clock.running <==> t.clock.white > 0 && t.clock.black > 0)
      && (t.flagFell.Some? <==> !t.clock.running)
      && (t.flagFell == Some(White) <==> t.clock.white <= 0)
    ensures Sane(c) ==> Sane(t.clock)
    ensures Sane(c) && t.flagFell.Some? ==> t.flagFell == Some(toMove) && Remaining(t.clock, toMove) == 0
  {
    if !c.running then TickOutcome(c, None)
    else if over then TickOutcome(c.(running := false), None)
    else if !live then TickOutcome(c, None)
    else
      var d := Adjust(c, toMove, -1);
      if d.white <= 0 || d.black <= 0 then
        TickOutcome(d.(running := false), Some(if d.white <= 0 then White else Black))
      else TickOutcome(d, None)
  }

  /** `n` ticks of a live, unfinished game with `toMove` on move; the alerts in order. */
  function Ticks(c: Clock, toMove: Color, n: nat): (Clock, seq<Color>)
    decreases n
  {
    if n == 0 then (c, [])
    else
      var t := Tick(c, false, true, toMove);
      var rest := Ticks(t.clock, toMove, n - 1);
      (rest.0, (if t.flagFell.Some? then [t.flagFell.value] else []) + rest.1)
  }

  /**
   * The countdown: each tick takes one second from the side to move only;
   * when that side reaches zero the timer stops and the loss on time is
   * announced exactly once, whatever the number of further ticks.
   */
  lemma {:induction false} TicksCountDown(c: Clock, toMove: Color, n: nat)
    requires Sane(c) && c.running
    ensures n < Remaining(c, toMove) ==>
      Ticks(c, toMove, n) == (Adjust(c, toMove, 0 - n), [])
    ensures n >= Remaining(c, toMove) ==>
      Ticks(c, toMove, n) == (Adjust(c, toMove, -Remaining(c, toMove)).(running := false), [toMove])
    decreases n
  {
    if n > 0 {
      var t := Tick(c, false, true, toMove);
      var rest := Ticks(t.clock, toMove, n - 1);
      if Remaining(c, toMove) == 1 {
        assert t == TickOutcome(Adjust(c, toMove, -1).(running := false), Some(toMove));
        StoppedClockIgnoresTicks(t.clock, toMove, n - 1);
        var r := Ticks(c, toMove, n);
        assert r.0 == rest.0 && r.1 == [toMove] + rest.1;
        assert rest.1 == [];
        assert r.1 == [toMove];
      } else {
        assert t == TickOutcome(Adjust(c, toMove, -1), None);
        TicksCountDown(t.clock, toMove, n - 1);
        var r := Ticks(c, toMove, n);
        assert r.0 == rest.0 && r.1 == [] + rest.1;
        assert Remaining(t.clock, toMove) == Remaining(c, toMove) - 1;
        if n < Remaining(c, toMove) {
          assert Adjust(t.clock, toMove, 0 - (n - 1)) == Adjust(c, toMove, 0 - n);
          assert rest.1 == [] && r.1 == [];
        } else {
          assert Adjust(t.clock, toMove, -Remaining(t.clock, toMove)) == Adjust(c, toMove, -Remaining(c, toMove));
          assert rest.1 == [toMove] && r.1 == [toMove];
        }
      }
    }
  }

  /** Once the timer is cleared, ticks change nothing and announce nothing. */
  lemma {:induction false} StoppedClockIgnoresTicks(c: Clock, toMove: Color, n: nat)
    requires !c.running
    ensures Ticks(c, toMove, n) == (c, [])
    decreases n
  {
    if n > 0 {
      assert Tick(c, false, true, toMove) == TickOutcome(c, None);
      StoppedClockIgnoresTicks(c, toMove, n - 1);
      var r := Ticks(c, toMove, n);
      assert r.0 == c && r.1 == [];
    }
  }

  /** Five ticks with White on move from the 5-minute preset: White 295 s, Black 300 s. */
  lemma FiveTicksFromFiveMinutes()
    ensures var (c, flags) := Ticks(ApplyPreset(300, 0), White, 5);
      c.white == 295 && c.black == 300 && c.running && flags == []
  {
    TicksCountDown(ApplyPreset(300, 0), White, 5);
  }

  /** A one-minute preset with White never moving: exactly one loss on time, White's. */
  lemma OneMinuteRunsOut(extra: nat)
    ensures var (c, flags) := Ticks(ApplyPreset(60, 0), White, 60 + extra);
      c.white == 0 && c.black == 60 && !c.running && flags == [White]
  {
    TicksCountDown(ApplyPreset(60, 0), White, 60 + extra);
  }
}

=== FILE: handlers.dfy ===
/**
 * The DOM handlers of script.js as transitions of the controller state:
 * replay navigation, the promotion modal, committing a move, the board
 * click, undo, new game, PGN import and the clock timer.
 */
module Handlers {
  import opened Wrappers
  import opened ChessOracle
  import opened GameClock
  import opened Settings
  import opened Text
  import opened AppState
  import opened Engine

  /**
   * A change of difficulty level (`applyDifficultyPreset`, script.js:204-219):
   * the level's depth is written into the depth field, so it is the depth
   * the next search uses; no other control changes. The skill level sent to
   * the engine is not modelled.
   */
  function OnDifficultyChange(cfg: Config, level: string): (c: Config)
    ensures c.depthField == Some(DifficultyPreset(level).depth)
    ensures SearchDepth(c.depthField) == DifficultyPreset(level).depth
    ensures c.(depthField := cfg.depthField) == cfg
  {
    PresetDepthIsSearched(level);
    cfg.(depthField := Some(DifficultyPreset(level).depth))
  }

  /**
   * Start-up (script.js:44-60, 220, 567-569): the difficulty level's depth
   * written into the depth field, the library's start position, an empty
   * move list viewed live, the selected preset on the clocks, and a search
   * of the start position at the level's depth when the engine plays the
   * side to move.
   */
  function Startup(r: Rules, cfg: Config, level: string): (w: World)
    ensures w.cfg == OnDifficultyChange(cfg, level)
    ensures var s := w.ctl;
      && Synced(s) && IsLive(s) && s.game == InitialGame && s.mainline == []
      && s.clock.running && s.clock.increment == cfg.presetIncrement
      && Remaining(s.clock, White) == cfg.presetSeconds && Remaining(s.clock, Black) == cfg.presetSeconds
      && s.selected.None? && s.pending.None?
    ensures EngineToMove(r, cfg, InitialGame) ==>
      w.ctl.awaiting == Some(SearchRequest(StartFen, DifficultyPreset(level).depth))
    ensures !EngineToMove(r, cfg, InitialGame) ==> w.ctl.awaiting.None?
  {
    var c := OnDifficultyChange(cfg, level);
    var s := Controller(InitialGame, [], 0, None, None, Clock(300, 300, 0, false), None);
    World(c, RequestEngineMove(r, c, s.(clock := ApplyPreset(cfg.presetSeconds, cfg.presetIncrement))))
  }

  // ---------------------------------------------------------------------
  // Replay
  // ---------------------------------------------------------------------

  /**
   * `goToIndex(i)` (script.js:300-305): the view index is brought into
   * range, the selection dropped, and nothing else touched.
   */
  function GoToIndex(s: Controller, i: int): (t: Controller)
    ensures 0 <= t.viewIndex <= |s.mainline|
    ensures 0 <= i <= |s.mainline| ==> t.viewIndex == i
    ensures i < 0 ==> t.viewIndex == 0
    ensures i > |s.mainline| ==> t.viewIndex == |s.mainline|
    ensures t == s.(viewIndex := t.viewIndex, selected := None)
  {
    s.(viewIndex := Clamp(i, 0, |s.mainline|), selected := None)
  }

  datatype ReplayButton = ToStart | Back | Forward | ToEnd

  /**
   * The four replay buttons (script.js:307-310), each a `goToIndex` call:
   * to the start, one ply back (staying at the start), one ply forward
   * (staying live), and to the live position.
   */
  function Replay(s: Controller, b: ReplayButton): (t: Controller)
    ensures t == s.(viewIndex := t.viewIndex, selected := None)
    ensures 0 <= t.viewIndex <= |s.mainline|
    ensures b == ToStart ==> t.viewIndex == 0
    ensures b == Back && 0 <= s.viewIndex <= |s.mainline| ==>
      t.viewIndex == if s.viewIndex == 0 then 0 else s.viewIndex - 1
    ensures b == Forward && 0 <= s.viewIndex <= |s.mainline| ==>
      t.viewIndex == if IsLive(s) then s.viewIndex else s.viewIndex + 1
    ensures b == ToEnd ==> IsLive(t)
  {
    match b
    case ToStart => GoToIndex(s, 0)
    case Back => GoToIndex(s, s.viewIndex - 1)
    case Forward => GoToIndex(s, s.viewIndex + 1)
    case ToEnd => GoToIndex(s, |s.mainline|)
  }

  /** Navigation is idempotent: going to the same index twice is going there once. */
  lemma GoToIndexIdempotent(s: Controller, i: int)
    ensures GoToIndex(GoToIndex(s, i), i) == GoToIndex(s, i)
  {
  }

  /** Stepping back and then forward returns to the same ply, with the move list untouched. */
  lemma BackThenForward(s: Controller)
    requires 0 < s.viewIndex <= |s.mainline|
    ensures Replay(Replay(s, Back), Forward) == s.(selected := None)
  {
  }

  /**
   * A click on move pill `i` (script.js:287-292) shows the position after
   * that ply.
   */
  function ShowPly(s: Controller, i: int): (t: Controller)
    requires 0 <= i < |s.mainline|
    ensures 1 <= t.viewIndex <= |s.mainline| && t.viewIndex == i + 1
    ensures t.mainline == s.mainline && t.game == s.game && t.clock == s.clock && t.selected.None?
  {
    s.(viewIndex := i + 1, selected := None)
  }

  /** A move pill behaves as the replay control pointed at the ply after it. */
  lemma ShowPlyIsGoToIndex(s: Controller, i: int)
    requires 0 <= i < |s.mainline|
    ensures ShowPly(s, i) == GoToIndex(s, i + 1)
  {
  }

  // ---------------------------------------------------------------------
  // Promotion
  // ---------------------------------------------------------------------

  /** The rank a pawn of colour `c` promotes on. */
  function PromotionRank(c: Color): char {
    if c == White then '8' else '1'
  }

  /**
   * `isPromotionMove(from, to)` (script.js:328-336): a pawn stands on
   * `from` and `to` lies on the far rank for its colour. A destination too
   * short to have a rank character never qualifies.
   */
  function IsPromotionMove(r: Rules, g: Game, from: Square, to: Square): (b: bool)
    ensures b <==>
      && PieceOn(r, g, from).Some?
      && PieceOn(r, g, from).value.kind == Pawn
      && |to| >= 2 && to[1] == PromotionRank(PieceOn(r, g, from).value.color)
  {
    var piece := PieceOn(r, g, from);
    if piece.None? || piece.value.kind != Pawn then false
    else
      var toRank := if |to| >= 2 then Some(to[1]) else None;
      (piece.value.color == White && toRank == Some('8'))
      || (piece.value.color == Black && toRank == Some('1'))
  }

  /**
   * `closePromotionModal` (script.js:343-346), also run by a click beside
   * the modal (script.js:359-361): the pending move is dropped and nothing
   * is committed.
   */
  function ClosePromotionModal(s: Controller): (t: Controller)
    ensures t.pending.None?
    ensures t.game == s.game && t.mainline == s.mainline && t.viewIndex == s.viewIndex
    ensures t.clock == s.clock && t.selected == s.selected && t.awaiting == s.awaiting
  {
    s.(pending := None)
  }

  // ---------------------------------------------------------------------
  // Committing a move
  // ---------------------------------------------------------------------

  datatype MoveResult = MoveResult(state: Controller, ok: bool)

  /**
   * `makeMove(from, to, promotion)` (script.js:373-389). The selection is
   * always dropped. A move the library rejects changes nothing else and
   * reports false. An accepted one reports true, extends the move list
   * with the library's history, jumps to the live view, credits the
   * increment to the side that was on move, and asks the engine for a
   * reply when it is now on move.
   */
  function MakeMove(r: Rules, cfg: Config, s: Controller, from: Square, to: Square, promotion: string): (res: MoveResult)
    ensures res.ok <==> r.accepts(Position(s.game), MoveRequest(from, to, promotion))
    ensures !res.ok ==> res.state == s.(selected := None)
    ensures res.ok ==>
      var m := MoveRequest(from, to, promotion);
      var g := ApplyMove(r, s.game, m).value;
      && res.state.game == g
      && res.state.mainline == History(g) && IsLive(res.state)
      && (Synced(s) ==> res.state.mainline == s.mainline + [r.san(Position(s.game), m)])
      && Credited(s.clock, res.state.clock, Turn(r, s.game))
      && res.state.selected.None? && res.state.pending == s.pending
      && (EngineToMove(r, cfg, g) ==>
            res.state.awaiting == Some(SearchRequest(Position(g), SearchDepth(cfg.depthField))))
      && (!EngineToMove(r, cfg, g) ==> res.state.awaiting == s.awaiting)
  {
    var mover := Turn(r, s.game);
    var m := MoveRequest(from, to, promotion);
    match ApplyMove(r, s.game, m)
    case None => MoveResult(s.(selected := None), false)
    case Some(g) =>
      HistoryAfterMove(r, s.game, m);
      var h := History(g);
      var t := s.(game := g, selected := None, clock := ApplyIncrement(s.clock, mover), mainline := h, viewIndex := |h|);
      var u := RequestEngineMove(r, cfg, t);
      MoveResult(u, true)
  }

  /**
   * A promotion button (script.js:348-356): with a move pending, commit it
   * with the chosen piece and close the modal, whether or not the library
   * accepts it; without one, nothing happens.
   */
  function ChoosePromotion(r: Rules, cfg: Config, s: Controller, piece: string): (t: Controller)
    ensures s.pending.None? ==> t == s
    ensures s.pending.Some? ==> t.pending.None? && t.selected.None?
    ensures s.pending.Some? ==>
      var m := MoveRequest(s.pending.value.from, s.pending.value.to, piece);
      && (r.accepts(Position(s.game), m) ==>
            var g := ApplyMove(r, s.game, m).value;
            && t.game == g && t.mainline == History(g) && IsLive(t)
            && Credited(s.clock, t.clock, Turn(r, s.game))
            && (EngineToMove(r, cfg, g) ==>
                  t.awaiting == Some(SearchRequest(Position(g), SearchDepth(cfg.depthField))))
            && (!EngineToMove(r, cfg, g) ==> t.awaiting == s.awaiting))
      && (!r.accepts(Position(s.game), m) ==> t == s.(selected := None, pending := None))
  {
    match s.pending
    case None => s
    case Some(p) => ClosePromotionModal(MakeMove(r, cfg, s, p.from, p.to, piece).state)
  }

  // ---------------------------------------------------------------------
  // Board clicks
  // ---------------------------------------------------------------------

  /**
   * The first-click rule (script.js:395-405): a piece stands on the square,
   * it belongs to the side to move, and that side is not the engine's.
   */
  predicate HumanMaySelect(r: Rules, cfg: Config, g: Game, sq: Square) {
    && PieceOn(r, g, sq).Some?
    && PieceOn(r, g, sq).value.color == Turn(r, g)
    && !(cfg.playVsAI && cfg.aiColor == Turn(r, g))
  }

  /**
   * A click on a board square (script.js:264-267 and `onSquareClick`,
   * script.js:394-419). In review nothing happens. Without a selection the
   * click selects the square when the human may move the piece on it, and
   * otherwise is ignored. With a selection, a promotion opens the modal
   * and commits nothing; any other move is committed with "q".
   */
  function OnSquareClick(r: Rules, cfg: Config, s: Controller, sq: Square): (t: Controller)
    ensures !IsLive(s) ==> t == s
    ensures IsLive(s) && s.selected.None? ==> t == s.(selected := t.selected)
    ensures IsLive(s) && s.selected.None? ==>
      (t.selected.Some? <==> HumanMaySelect(r, cfg, s.game, sq)) && (t.selected.Some? ==> t.selected == Some(sq))
    ensures IsLive(s) && s.selected.Some? && IsPromotionMove(r, s.game, s.selected.value, sq) ==>
      t == s.(pending := Some(PromotionTarget(s.selected.value, sq)), selected := None)
    ensures IsLive(s) && s.selected.Some? && !IsPromotionMove(r, s.game, s.selected.value, sq) ==>
      t == MakeMove(r, cfg, s, s.selected.value, sq, "q").state
  {
    if !IsLive(s) then s
    else match s.selected
      case None =>
        var piece := PieceOn(r, s.game, sq);
        if piece.None? then s
        else if piece.value.color != Turn(r, s.game) then s
        else if cfg.playVsAI && cfg.aiColor == Turn(r, s.game) then s
        else s.(selected := Some(sq))
      case Some(from) =>
        if IsPromotionMove(r, s.game, from, sq) then
          s.(pending := Some(PromotionTarget(from, sq)), selected := None)
        else MakeMove(r, cfg, s, from, sq, "q").state
  }

  /**
   * The promotion gate end to end: selecting a pawn and clicking its
   * promotion square commits nothing; choosing a piece then commits the
   * move with that piece, when the library accepts it, and closes the gate.
   */
  lemma PromotionGate(r: Rules, cfg: Config, s: Controller, from: Square, to: Square, piece: string)
    requires IsLive(s) && s.selected.None?
    requires HumanMaySelect(r, cfg, s.game, from)
    requires IsPromotionMove(r, s.game, from, to)
    ensures var s2 := OnSquareClick(r, cfg, OnSquareClick(r, cfg, s, from), to);
      && s2.game == s.game && s2.mainline == s.mainline && s2.clock == s.clock
      && s2.pending == Some(PromotionTarget(from, to))
    ensures var s3 := ChoosePromotion(r, cfg, OnSquareClick(r, cfg, OnSquareClick(r, cfg, s, from), to), piece);
      && s3.pending.None?
      && (r.accepts(Position(s.game), MoveRequest(from, to, piece)) ==>
            s3.game == ApplyMove(r, s.game, MoveRequest(from, to, piece)).value && IsLive(s3))
      && (!r.accepts(Position(s.game), MoveRequest(from, to, piece)) ==> s3.game == s.game)
  {
  }

  /** A move that is not a promotion bypasses the gate and is committed at once with "q". */
  lemma OrdinaryMoveBypassesGate(r: Rules, cfg: Config, s: Controller, from: Square, to: Square)
    requires IsLive(s) && s.selected.None?
    requires HumanMaySelect(r, cfg, s.game, from)
    requires !IsPromotionMove(r, s.game, from, to)
    ensures var t := OnSquareClick(r, cfg, OnSquareClick(r, cfg, s, from), to);
      && t.pending == s.pending
      && (r.accepts(Position(s.game), MoveRequest(from, to, "q")) <==> t.game != s.game)
      && (r.accepts(Position(s.game), MoveRequest(from, to, "q")) ==>
            t.game == ApplyMove(r, s.game, MoveRequest(from, to, "q")).value)
  {
    var m := MoveRequest(from, to, "q");
    if r.accepts(Position(s.game), m) {
      assert |ApplyMove(r, s.game, m).value.plies| == |s.game.plies| + 1;
    }
  }

  // ---------------------------------------------------------------------
  // Undo and new game
  // ---------------------------------------------------------------------

  /**
   * The undo button (script.js:487-507). With an empty move list nothing
   * happens. Otherwise one ply is taken back, and a second one when the
   * engine plays and would be on move after the first; the move list
   * follows the library's history, the view goes live, the selection is
   * dropped, and the clocks are left as they are.
   */
  function UndoLastMove(r: Rules, cfg: Config, s: Controller): (t: Controller)
    ensures |s.mainline| == 0 ==> t == s
    ensures |s.mainline| > 0 ==>
      && t.game.start == s.game.start
      && |t.game.plies| <= |s.game.plies|
      && t.game.plies == s.game.plies[..|t.game.plies|]
      && t.mainline == History(t.game) && IsLive(t) && t.selected.None?
      && t.clock == s.clock && t.pending == s.pending && t.awaiting == s.awaiting
    ensures (|s.mainline| > 0 && |s.game.plies| > 0
             && !(cfg.playVsAI && Turn(r, UndoPly(s.game)) == cfg.aiColor)) ==>
      |t.game.plies| == |s.game.plies| - 1
    ensures (|s.mainline| > 0 && |s.game.plies| > 0
             && cfg.playVsAI && Turn(r, UndoPly(s.game)) == cfg.aiColor) ==>
      |t.game.plies| == Max(0, |s.game.plies| - 2)
  {
    if |s.mainline| == 0 then s
    else
      var once := UndoPly(s.game);
      var g := if cfg.playVsAI && Turn(r, once) == cfg.aiColor then UndoPly(once) else once;
      assert g.plies == s.game.plies[..|g.plies|];
      var h := History(g);
      s.(game := g, mainline := h, viewIndex := |h|, selected := None)
  }

  /**
   * Undo takes back a human's move: when the side that moved is not the
   * engine's, committing a move and pressing undo restores the move list
   * and the library's game.
   */
  lemma UndoTakesBackHumanMove(r: Rules, cfg: Config, s: Controller, from: Square, to: Square, promotion: string)
    requires Synced(s)
    requires r.accepts(Position(s.game), MoveRequest(from, to, promotion))
    requires !cfg.playVsAI || Turn(r, s.game) != cfg.aiColor
    ensures var t := UndoLastMove(r, cfg, MakeMove(r, cfg, s, from, to, promotion).state);
      t.game == s.game && t.mainline == s.mainline
  {
    var m := MoveRequest(from, to, promotion);
    UndoAfterMove(r, s.game, m);
  }

  /**
   * Against the engine, undo takes back the engine's reply together with
   * the human move before it, so the human is on move again in the
   * position before their move.
   */
  lemma UndoTakesBackMovePair(r: Rules, cfg: Config, s: Controller, g: Game, human: MoveRequest, reply: MoveRequest)
    requires r.accepts(Position(g), human)
    requires r.accepts(Position(ApplyMove(r, g, human).value), reply)
    requires s.game == ApplyMove(r, ApplyMove(r, g, human).value, reply).value
    requires Synced(s)
    requires cfg.playVsAI && Turn(r, ApplyMove(r, g, human).value) == cfg.aiColor
    ensures UndoLastMove(r, cfg, s).game == g
    ensures UndoLastMove(r, cfg, s).mainline == History(g)
  {
  }

  /**
   * The new-game button (script.js:509-521): the start position, an empty
   * move list, the selected preset on the clocks, and a search when the
   * engine plays the side to move. A pending promotion and an earlier
   * resolver are left as they were.
   */
  function NewGame(r: Rules, cfg: Config, s: Controller): (t: Controller)
    ensures t.game == InitialGame && t.mainline == [] && t.viewIndex == 0 && t.selected.None?
    ensures t.clock.running && t.clock.increment == cfg.presetIncrement
    ensures Remaining(t.clock, White) == cfg.presetSeconds && Remaining(t.clock, Black) == cfg.presetSeconds
    ensures t.pending == s.pending
    ensures EngineToMove(r, cfg, InitialGame) ==>
      t.awaiting == Some(SearchRequest(StartFen, SearchDepth(cfg.depthField)))
    ensures !EngineToMove(r, cfg, InitialGame) ==> t.awaiting == s.awaiting
  {
    var t := s.(game := InitialGame, mainline := [], viewIndex := 0, selected := None,
                clock := ApplyPreset(cfg.presetSeconds, cfg.presetIncrement));
    RequestEngineMove(r, cfg, t)
  }

  /**
   * The import button (script.js:530-547), as written: a blank box changes
   * nothing. A PGN the library cannot load leaves the library holding
   * whatever game it reached before giving up, while the move list and the
   * view keep describing the old one. A loaded game replaces the move list,
   * goes live, drops the selection, and lets the engine reply if on move.
   */
  function ImportPgnAsWritten(r: Rules, cfg: Config, s: Controller, text: string): (t: Controller)
    ensures IsBlank(text) ==> t == s
    ensures !IsBlank(text) && r.loadPgn(Trim(text)).Rejected? ==>
      t == s.(game := r.loadPgn(Trim(text)).left)
    ensures !IsBlank(text) && r.loadPgn(Trim(text)).Loaded? ==>
      t == ImportPgn(r, cfg, s, text)
  {
    var pgn := Trim(text);
    if |pgn| == 0 then s
    else match r.loadPgn(pgn)
      case Rejected(left) => s.(game := left)
      case Loaded(_) => ImportPgn(r, cfg, s, text)
  }

  /**
   * A failed import as written leaves the move list describing a game the
   * library no longer holds, whenever the game it is left with has a
   * different history; the corrected import keeps the two in step.
   */
  lemma FailedImportDesyncs(r: Rules, cfg: Config, s: Controller, text: string)
    requires Synced(s) && !IsBlank(text)
    requires r.loadPgn(Trim(text)).Rejected? && History(r.loadPgn(Trim(text)).left) != s.mainline
    ensures !Synced(ImportPgnAsWritten(r, cfg, s, text))
    ensures Synced(ImportPgn(r, cfg, s, text))
  {
  }

  /**
   * The import button with the failure path as evidently intended: a blank
   * box or a PGN the library cannot load changes nothing; a loaded game
   * replaces the move list, goes live, drops the selection, and lets the
   * engine reply if on move (script.js:546).
   */
  function ImportPgn(r: Rules, cfg: Config, s: Controller, text: string): (t: Controller)
    ensures IsBlank(text) ==> t == s
    ensures !IsBlank(text) && r.loadPgn(Trim(text)).Rejected? ==> t == s
    ensures !IsBlank(text) && r.loadPgn(Trim(text)).Loaded? ==>
      var g := r.loadPgn(Trim(text)).game;
      && t.game == g
      && t.mainline == History(g) && IsLive(t) && t.selected.None?
      && t.clock == s.clock && t.pending == s.pending
      && (EngineToMove(r, cfg, g) ==>
            t.awaiting == Some(SearchRequest(Position(g), SearchDepth(cfg.depthField))))
      && (!EngineToMove(r, cfg, g) ==> t.awaiting == s.awaiting)
  {
    var pgn := Trim(text);
    if |pgn| == 0 then s
    else match r.loadPgn(pgn)
      case Rejected(_) => s
      case Loaded(g) =>
        var h := History(g);
        RequestEngineMove(r, cfg, s.(game := g, mainline := h, viewIndex := |h|, selected := None))
  }

  /** The import the variant `v` runs. */
  function ImportFor(v: Variant, r: Rules, cfg: Config, s: Controller, text: string): Controller {
    if v == AsWritten then ImportPgnAsWritten(r, cfg, s, text) else ImportPgn(r, cfg, s, text)
  }

  /**
   * A change of the engine's colour (script.js:466-470), read from `cfg`:
   * the selection is dropped and the engine moves if now on move.
   */
  function OnAiColorChange(r: Rules, cfg: Config, s: Controller): (t: Controller)
    ensures t.(awaiting := s.awaiting) == s.(selected := None)
    ensures EngineToMove(r, cfg, s.game) ==>
      t.awaiting == Some(SearchRequest(Position(s.game), SearchDepth(cfg.depthField)))
    ensures !EngineToMove(r, cfg, s.game) ==> t.awaiting == s.awaiting
  {
    RequestEngineMove(r, cfg, s.(selected := None))
  }

  /** The apply-time button (script.js:102-111): the selected preset, the timer restarted. */
  function ApplyTimePreset(cfg: Config, s: Controller): (t: Controller)
    ensures t.clock.running && t.clock.increment == cfg.presetIncrement
    ensures Remaining(t.clock, White) == cfg.presetSeconds && Remaining(t.clock, Black) == cfg.presetSeconds
    ensures t == s.(clock := t.clock)
  {
    s.(clock := ApplyPreset(cfg.presetSeconds, cfg.presetIncrement))
  }

  datatype TickStep = TickStep(state: Controller, flagFell: Option<Color>)

  /**
   * One firing of the clock timer (script.js:81-98) against the live game:
   * only the clock changes, and only while the game is unfinished and the
   * view live. The side to move loses a second; once either clock is at or
   * below zero the timer stops and the alert names White when White is out,
   * Black otherwise.
   */
  function ClockTick(r: Rules, s: Controller): (t: TickStep)
    ensures t.state == s.(clock := t.state.clock)
    ensures !IsLive(s) ==>
      t.flagFell.None? && t.state.clock.white == s.clock.white && t.state.clock.black == s.clock.black
    ensures IsOver(r, s.game) ==> t.state.clock == s.clock.(running := false)
    ensures s.clock.running && !IsOver(r, s.game) && IsLive(s) ==>
      && Remaining(t.state.clock, Turn(r, s.game)) == Remaining(s.clock, Turn(r, s.game)) - 1
      && Remaining(t.state.clock, Opponent(Turn(r, s.game))) == Remaining(s.clock, Opponent(Turn(r, s.game)))
    ensures s.clock.running && !IsOver(r, s.game) && IsLive(s) ==>
      var c := t.state.clock;
      && (c.running <==> c.white > 0 && c.black > 0)
      && (t.flagFell.Some? <==> !c.running)
      && (t.flagFell == Some(White) <==> c.white <= 0)
    ensures !s.clock.running || (!IsOver(r, s.game) && !IsLive(s)) ==> t == TickStep(s, None)
    ensures t.state.clock.increment == s.clock.increment
    ensures Sane(s.clock) ==> Sane(t.state.clock)
  {
    var o := Tick(s.clock, IsOver(r, s.game), IsLive(s), Turn(r, s.game));
    TickStep(s.(clock := o.clock), o.flagFell)
  }
}

=== FILE: session.dfy ===
/**
 * The page as a whole: every user action, timer firing and engine line is
 * an event, each handled to completion before the next. The invariants
 * here hold after any sequence of events.
 */
module Session {
  import opened Wrappers
  import opened ChessOracle
  import opened GameClock
  import opened Settings
  import opened AppState
  import opened Engine
  import opened Text
  import opened Handlers

  datatype Event =
    | SquareClicked(square: Square)
    | PromotionChosen(piece: string)
    | PromotionDismissed
    | ReplayPressed(button: ReplayButton)
    | MovePillClicked(ply: int)
    | TimerFired
    | UndoPressed
    | NewGamePressed
    | ImportPressed(text: string)
    | EngineLine(line: string)
    | AiColorChanged(color: Color)
    | DifficultyChanged(level: string)
    | ApplyTimePressed
    | SettingsEdited(playVsAI: bool, depthField: Option<int>, presetSeconds: int, presetIncrement: int)

  /** Presets start both clocks with time on them. */
  predicate PresetPositive(cfg: Config) {
    cfg.presetSeconds > 0
  }

  /** An event that keeps the selected preset positive. */
  predicate KeepsPresetPositive(e: Event) {
    e.SettingsEdited? ==> e.presetSeconds > 0
  }

  /** An event that is not an import of a PGN the library rejects. */
  predicate NoFailedImport(r: Rules, e: Event) {
    e.ImportPressed? && !IsBlank(e.text) ==> r.loadPgn(Trim(e.text)).Loaded?
  }

  /**
   * The board, the promotion modal and the replay controls. A move pill
   * exists only for a ply of the move list, so a click on any other index
   * cannot happen.
   */
  function BoardStep(r: Rules, cfg: Config, s: Controller, e: Event): (t: Controller)
    requires e.SquareClicked? || e.PromotionChosen? || e.PromotionDismissed? || e.ReplayPressed? || e.MovePillClicked?
    ensures Synced(s) ==> Synced(t)
    ensures Sane(s.clock) ==> Sane(t.clock)
  {
    match e
    case SquareClicked(sq) => OnSquareClick(r, cfg, s, sq)
    case PromotionChosen(piece) => ChoosePromotion(r, cfg, s, piece)
    case PromotionDismissed => ClosePromotionModal(s)
    case ReplayPressed(b) => Replay(s, b)
    case MovePillClicked(i) => if 0 <= i < |s.mainline| then ShowPly(s, i) else s
  }

  /**
   * The timer, undo, new game, import and the engine's lines, as written or
   * corrected according to `variant`.
   */
  function GameStep(r: Rules, variant: Variant, cfg: Config, s: Controller, e: Event): (t: Controller)
    requires e.TimerFired? || e.UndoPressed? || e.NewGamePressed? || e.ImportPressed? || e.EngineLine?
    ensures Synced(s) && (variant == Corrected || NoFailedImport(r, e)) ==> Synced(t)
    ensures Sane(s.clock) && PresetPositive(cfg) ==> Sane(t.clock)
  {
    match e
    case TimerFired => ClockTick(r, s).state
    case UndoPressed => UndoLastMove(r, cfg, s)
    case NewGamePressed => NewGame(r, cfg, s)
    case ImportPressed(text) => ImportFor(variant, r, cfg, s, text)
    case EngineLine(line) => OnEngineLine(r, variant, s, line)
  }

  /**
   * Dispatches one event to its handler, as written or corrected according
   * to `variant`. The move list stays in step with the library except after
   * a failed import as written, and with positive presets a running clock
   * never shows a side at or below zero.
   */
  function Step(r: Rules, variant: Variant, w: World, e: Event): (v: World)
    ensures Synced(w.ctl) && (variant == Corrected || NoFailedImport(r, e)) ==> Synced(v.ctl)
    ensures Sane(w.ctl.clock) && PresetPositive(w.cfg) && KeepsPresetPositive(e) ==>
      Sane(v.ctl.clock) && PresetPositive(v.cfg)
  {
    var cfg := w.cfg;
    var s := w.ctl;
    // The controller events go through BoardStep and GameStep, each with its
    // own contract, so that no single proof has to cover every handler.
    match e
    case SquareClicked(_) => World(cfg, BoardStep(r, cfg, s, e))
    case PromotionChosen(_) => World(cfg, BoardStep(r, cfg, s, e))
    case PromotionDismissed => World(cfg, BoardStep(r, cfg, s, e))
    case ReplayPressed(_) => World(cfg, BoardStep(r, cfg, s, e))
    case MovePillClicked(_) => World(cfg, BoardStep(r, cfg, s, e))
    case TimerFired => World(cfg, GameStep(r, variant, cfg, s, e))
    case UndoPressed => World(cfg, GameStep(r, variant, cfg, s, e))
    case NewGamePressed => World(cfg, GameStep(r, variant, cfg, s, e))
    case ImportPressed(_) => World(cfg, GameStep(r, variant, cfg, s, e))
    case EngineLine(_) => World(cfg, GameStep(r, variant, cfg, s, e))
    case AiColorChanged(c) =>
      var cfg' := cfg.(aiColor := c);
      World(cfg', OnAiColorChange(r, cfg', s))
    case DifficultyChanged(level) => World(OnDifficultyChange(cfg, level), s)
    case ApplyTimePressed => World(cfg, ApplyTimePreset(cfg, s))
    case SettingsEdited(vsAI, depth, seconds, inc) =>
      World(cfg.(playVsAI := vsAI, depthField := depth, presetSeconds := seconds, presetIncrement := inc), s)
  }

  function Run(r: Rules, variant: Variant, w: World, es: seq<Event>): World
    decreases |es|
  {
    if |es| == 0 then w else Run(r, variant, Step(r, variant, w, es[0]), es[1..])
  }

  /**
   * Whatever happens, the move list equals the library's history (so the
   * two have the same length) and the view index stays within it; for the
   * code as written, as long as no import fails.
   */
  lemma {:induction false} RunKeepsSynced(r: Rules, variant: Variant, w: World, es: seq<Event>)
    requires Synced(w.ctl)
    requires variant == AsWritten ==> forall i :: 0 <= i < |es| ==> NoFailedImport(r, es[i])
    ensures Synced(Run(r, variant, w, es).ctl)
    ensures |Run(r, variant, w, es).ctl.mainline| == |Run(r, variant, w, es).ctl.game.plies|
    decreases |es|
  {
    if |es| > 0 {
      RunKeepsSynced(r, variant, Step(r, variant, w, es[0]), es[1..]);
    }
  }

  /**
   * With positive presets, a running clock never shows a side at or below
   * zero between events: the timer stops on the tick that empties a clock.
   */
  lemma {:induction false} RunKeepsClockSane(r: Rules, variant: Variant, w: World, es: seq<Event>)
    requires Sane(w.ctl.clock) && PresetPositive(w.cfg)
    requires forall i :: 0 <= i < |es| ==> KeepsPresetPositive(es[i])
    ensures Sane(Run(r, variant, w, es).ctl.clock)
    decreases |es|
  {
    if |es| > 0 {
      RunKeepsClockSane(r, variant, Step(r, variant, w, es[0]), es[1..]);
    }
  }

  /** The page as loaded satisfies both invariants. */
  lemma StartupIsSynced(r: Rules, cfg: Config, level: string)
    requires PresetPositive(cfg)
    ensures Synced(Startup(r, cfg, level).ctl) && Sane(Startup(r, cfg, level).ctl.clock)
    ensures PresetPositive(Startup(r, cfg, level).cfg)
  {
  }

  /** In review the board ignores clicks and the clocks do not run. */
  lemma ReviewIsReadOnly(r: Rules, variant: Variant, w: World, sq: Square)
    requires !IsLive(w.ctl)
    ensures Step(r, variant, w, SquareClicked(sq)) == w
    ensures Step(r, variant, w, TimerFired).ctl.clock.white == w.ctl.clock.white
    ensures Step(r, variant, w, TimerFired).ctl.clock.black == w.ctl.clock.black
    ensures Step(r, variant, w, TimerFired).ctl.game == w.ctl.game
  {
  }

  /**
   * A new game without the engine, then a human e2-e4 the library accepts:
   * one ply in the move list, the view on it, Black's clock untouched and
   * White's credited with the increment, if any.
   */
  lemma FirstMoveScenario(r: Rules, variant: Variant, cfg: Config, s: Controller)
    requires !cfg.playVsAI
    requires PieceOn(r, InitialGame, "e2") == Some(Piece(White, Pawn))
    requires Turn(r, InitialGame) == White
    requires r.accepts(StartFen, MoveRequest("e2", "e4", "q"))
    ensures var w := Run(r, variant, World(cfg, s), [NewGamePressed, SquareClicked("e2"), SquareClicked("e4")]).ctl;
      && w.mainline == [r.san(StartFen, MoveRequest("e2", "e4", "q"))]
      && w.viewIndex == 1
      && w.clock.black == cfg.presetSeconds
      && w.clock.white == cfg.presetSeconds + Max(0, cfg.presetIncrement)
  {
    var w0 := World(cfg, s);
    var w1 := Step(r, variant, w0, NewGamePressed);
    var w2 := Step(r, variant, w1, SquareClicked("e2"));
    assert w2.ctl.selected == Some("e2");
    var w3 := Step(r, variant, w2, SquareClicked("e4"));
    assert !IsPromotionMove(r, w2.ctl.game, "e2", "e4");
    assert Run(r, variant, w2, [SquareClicked("e4")]) == w3;
    assert [NewGamePressed, SquareClicked("e2"), SquareClicked("e4")][1..] == [SquareClicked("e2"), SquareClicked("e4")];
    assert [SquareClicked("e2"), SquareClicked("e4")][1..] == [SquareClicked("e4")];
  }
}

=== FILE: settings.dfy ===
/** Engine settings read from the controls: the depth bound and the difficulty presets. */
module Settings {
  import opened Wrappers

  /** `clamp(n, min, max)` (script.js:166-168), `Math.max(min, Math.min(max, n))`. */
  function Clamp(n: int, lo: int, hi: int): (r: int)
    ensures lo <= hi ==> lo <= r <= hi
    ensures lo <= n <= hi ==> r == n
    ensures n < lo || hi < lo ==> r == lo
    ensures lo <= hi < n ==> r == hi
  {
    Max(lo, Min(hi, n))
  }

  const DefaultDepth: int := 12
  const MinDepth: int := 1
  const MaxDepth: int := 20

  /**
   * `clamp(Number(depthEl.value) || 12, 1, 20)` (script.js:451): the depth
   * field's number, `None` when it is not a number (NaN); NaN and 0 are
   * falsy and fall back to 12.
   */
  function SearchDepth(field: Option<int>): (d: int)
    ensures MinDepth <= d <= MaxDepth
    ensures field.None? || field == Some(0) ==> d == DefaultDepth
    ensures field.Some? && MinDepth <= field.value <= MaxDepth ==> d == field.value
    ensures field.Some? && field.value < 0 ==> d == MinDepth
    ensures field.Some? && field.value > MaxDepth ==> d == MaxDepth
  {
    var n := match field case None => DefaultDepth case Some(v) => if v == 0 then DefaultDepth else v;
    Clamp(n, MinDepth, MaxDepth)
  }

  /** What a difficulty level sets: the depth field and the engine's skill level. */
  datatype Strength = Strength(depth: int, skill: int)

  /**
   * `applyDifficultyPreset` (script.js:204-218): "easy" and "hard" have
   * their own settings, every other level (the "medium" option) the
   * defaults.
   */
  function DifficultyPreset(level: string): (p: Strength)
    ensures MinDepth <= p.depth <= MaxDepth && 0 <= p.skill <= 20
    ensures level == "easy" ==> p == Strength(8, 5)
    ensures level == "hard" ==> p == Strength(16, 18)
    ensures level != "easy" && level != "hard" ==> p == Strength(DefaultDepth, 10)
  {
    var p := Strength(12, 10);
    var p := if level == "easy" then Strength(8, 5) else p;
    if level == "hard" then Strength(16, 18) else p
  }

  /** A preset's depth, written to the depth field, is exactly the depth the next search uses. */
  lemma PresetDepthIsSearched(level: string)
    ensures SearchDepth(Some(DifficultyPreset(level).depth)) == DifficultyPreset(level).depth
  {
  }
}

=== FILE: text.dfy ===
/** The few JavaScript string operations the controller relies on. */
module Text {
  import opened Wrappers

  /** `s.startsWith(prefix)`. */
  predicate StartsWith(s: string, prefix: string) {
    |prefix| <= |s| && s[..|prefix|] == prefix
  }

  /** `s.indexOf(c)`, with -1 written as `None`. */
  function IndexOf(s: string, c: char): (r: Option<nat>)
    ensures r.None? <==> c !in s
    ensures r.Some? ==> r.value < |s| && s[r.value] == c && c !in s[..r.value]
  {
    if |s| == 0 then None
    else if s[0] == c then Some(0)
    else match IndexOf(s[1..], c)
      case None => None
      case Some(i) => assert s[..i + 1] == [s[0]] + s[1..][..i]; Some(i + 1)
  }

  /**
   * `line.split(" ")[1]`: the text between the first and the second space
   * (or the end of the line); `undefined` when the line holds no space.
   */
  function SecondField(line: string): (f: Option<string>)
    ensures f.None? <==> ' ' !in line
    ensures f.Some? ==> ' ' !in f.value
  {
    match IndexOf(line, ' ')
    case None => None
    case Some(i) =>
      var rest := line[i + 1..];
      match IndexOf(rest, ' ')
      case None => Some(rest)
      case Some(j) => Some(rest[..j])
  }

  lemma IndexOfFirst(a: string, c: char, b: string)
    requires c !in a
    ensures IndexOf(a + [c] + b, c) == Some(|a|)
  {
    var s := a + [c] + b;
    assert s[|a|] == c;
    assert s[..|a|] == a;
  }

  /**
   * `split(" ")[1]` recovers the field that follows the first space: the
   * reply "bestmove e2e4 ponder e7e5" yields "e2e4".
   */
  lemma {:induction false} SecondFieldOf(head: string, field: string, tail: string)
    requires ' ' !in head && ' ' !in field
    requires tail == [] || tail[0] == ' '
    ensures SecondField(head + " " + field + tail) == Some(field)
  {
    var line := head + " " + field + tail;
    assert line == head + [' '] + (field + tail);
    IndexOfFirst(head, ' ', field + tail);
    var rest := line[|head| + 1..];
    assert rest == field + tail;
    if tail == [] {
      assert rest == field;
    } else {
      assert rest == field + [' '] + tail[1..];
      IndexOfFirst(field, ' ', tail[1..]);
      assert rest[..|field|] == field;
    }
  }

  /** The characters `String.prototype.trim` removes at either end, restricted to the common ones. */
  predicate IsWhitespace(c: char) {
    c == ' ' || c == '\t' || c == '\n' || c == '\r' || c == '\U{000B}' || c == '\U{000C}'
    || c == '\U{00A0}' || c == '\U{2028}' || c == '\U{2029}' || c == '\U{FEFF}'
  }

  predicate IsBlank(s: string) {
    forall i :: 0 <= i < |s| ==> IsWhitespace(s[i])
  }

  /** How many whitespace characters open `s`. */
  function LeadingBlanks(s: string): (n: nat)
    ensures n <= |s|
    ensures forall j :: 0 <= j < n ==> IsWhitespace(s[j])
    ensures n < |s| ==> !IsWhitespace(s[n])
  {
    if |s| == 0 || !IsWhitespace(s[0]) then 0 else LeadingBlanks(s[1..]) + 1
  }

  /** How many whitespace characters close `s`. */
  function TrailingBlanks(s: string): (n: nat)
    ensures n <= |s|
    ensures forall j :: |s| - n <= j < |s| ==> IsWhitespace(s[j])
    ensures n < |s| ==> !IsWhitespace(s[|s| - n - 1])
  {
    if |s| == 0 || !IsWhitespace(s[|s| - 1]) then 0 else TrailingBlanks(s[..|s| - 1]) + 1
  }

  /**
   * `s.trim()`: the segment of `s` left once the whitespace opening and
   * closing it is cut away. It is empty exactly for a blank text, and
   * otherwise starts and ends with a character that is not whitespace.
   */
  function Trim(s: string): (t: string)
    ensures LeadingBlanks(s) + |t| <= |s| && t == s[LeadingBlanks(s)..LeadingBlanks(s) + |t|]
    ensures forall j :: LeadingBlanks(s) + |t| <= j < |s| ==> IsWhitespace(s[j])
    ensures |t| == 0 <==> IsBlank(s)
    ensures |t| > 0 ==> !IsWhitespace(t[0]) && !IsWhitespace(t[|t| - 1])
  {
    var i := LeadingBlanks(s);
    var rest := s[i..];
    var n := TrailingBlanks(rest);
    if i == |s| then []
    else
      assert !IsWhitespace(rest[0]);
      assert !IsBlank(s) by { assert !IsWhitespace(s[i]); }
      rest[..|rest| - n]
  }
}

=== FILE: time_format.dfy ===
/** `formatTime` (script.js:62-67): whole seconds shown as minutes and seconds, "MM:SS". */
module TimeFormat {
  import opened Wrappers

  predicate IsDigit(c: char) {
    '0' <= c <= '9'
  }

  predicate AllDigits(s: string) {
    forall i :: 0 <= i < |s| ==> IsDigit(s[i])
  }

  function DigitChar(d: nat): (c: char)
    requires d < 10
    ensures IsDigit(c) && c as int - '0' as int == d
  {
    ('0' as int + d) as char
  }

  /** The number a string of decimal digits denotes (leading zeros allowed). */
  function Value(s: string): nat
    requires AllDigits(s)
  {
    if |s| == 0 then 0 else Value(s[..|s| - 1]) * 10 + (s[|s| - 1] as int - '0' as int)
  }

  /** JavaScript `String(n)` for a non-negative integer: its decimal digits, no leading zero. */
  function DecimalString(n: nat): (s: string)
    ensures |s| >= 1 && AllDigits(s)
    ensures n < 10 <==> |s| == 1
    ensures n < 100 ==> |s| <= 2
  {
    if n < 10 then [DigitChar(n)] else DecimalString(n / 10) + [DigitChar(n % 10)]
  }

  /** `s.padStart(width, fill)`: `fill` characters in front of `s` up to `width`. */
  function PadStart(s: string, width: nat, fill: char): (p: string)
    ensures |p| == Max(width, |s|)
    ensures p[|p| - |s|..] == s
    ensures forall i :: 0 <= i < |p| - |s| ==> p[i] == fill
  {
    if |s| >= width then s else seq(width - |s|, _ => fill) + s
  }

  /** `String(n).padStart(2, "0")`. */
  function PaddedDigits(n: nat): (p: string)
    ensures |p| >= 2 && AllDigits(p)
    ensures n < 60 ==> |p| == 2
  {
    var d := DecimalString(n);
    var p := PadStart(d, 2, '0');
    assert forall i :: |p| - |d| <= i < |p| ==> p[i] == d[i - (|p| - |d|)];
    p
  }

  /** Minutes and seconds below sixty joined as "MM:SS". */
  function Clockface(minutes: nat, seconds: nat): (t: string)
    requires seconds < 60
    ensures |t| >= 5 && t[|t| - 3] == ':'
    ensures t[..|t| - 3] == PaddedDigits(minutes) && t[|t| - 2..] == PaddedDigits(seconds)
    ensures AllDigits(t[..|t| - 3]) && AllDigits(t[|t| - 2..])
  {
    var m := PaddedDigits(minutes);
    var ss := PaddedDigits(seconds);
    assert |ss| == 2;
    var t := m + [':'] + ss;
    assert |t| == |m| + 3;
    assert t[..|t| - 3] == m;
    assert t[|t| - 2..] == ss;
    t
  }

  /** `formatTime(sec)` for whole seconds; a negative time shows as zero. */
  function FormatTime(sec: int): (t: string)
    ensures |t| >= 5 && t[|t| - 3] == ':'
    ensures AllDigits(t[..|t| - 3]) && AllDigits(t[|t| - 2..])
  {
    var s: nat := Max(0, sec);
    var minutes: nat := s / 60;
    var seconds: nat := s % 60;
    Clockface(minutes, seconds)
  }

  /**
   * Reads "M:SS" back: the digits before the colon are minutes, the two
   * after it seconds below sixty. `None` for any other text.
   */
  function ParseClock(t: string): Option<int> {
    if |t| >= 4 && t[|t| - 3] == ':' && AllDigits(t[..|t| - 3]) && AllDigits(t[|t| - 2..])
       && Value(t[|t| - 2..]) < 60
    then Some(Value(t[..|t| - 3]) * 60 + Value(t[|t| - 2..]))
    else None
  }

  /** `String(n)` denotes `n` and has no superfluous leading zero. */
  lemma {:induction false} DecimalStringValue(n: nat)
    ensures Value(DecimalString(n)) == n
    ensures |DecimalString(n)| > 1 ==> DecimalString(n)[0] != '0'
  {
    var s := DecimalString(n);
    if n >= 10 {
      DecimalStringValue(n / 10);
      assert s[..|s| - 1] == DecimalString(n / 10);
      assert s[0] == DecimalString(n / 10)[0];
    }
  }

  lemma {:induction false} ValueOfZeros(z: string)
    requires forall i :: 0 <= i < |z| ==> z[i] == '0'
    ensures AllDigits(z) && Value(z) == 0
  {
    if |z| > 0 {
      ValueOfZeros(z[..|z| - 1]);
    }
  }

  /** Zero padding in front does not change the number a digit string denotes. */
  lemma {:induction false} ValueIgnoresLeadingZeros(z: string, s: string)
    requires forall i :: 0 <= i < |z| ==> z[i] == '0'
    requires AllDigits(s)
    ensures AllDigits(z + s) && Value(z + s) == Value(s)
    decreases |s|
  {
    ValueOfZeros(z);
    if |s| == 0 {
      assert z + s == z;
    } else {
      ValueIgnoresLeadingZeros(z, s[..|s| - 1]);
      assert (z + s)[..|z + s| - 1] == z + s[..|s| - 1];
    }
  }

  /** A padded `String(n)` still denotes `n`. */
  lemma PaddedValue(n: nat)
    ensures Value(PaddedDigits(n)) == n
  {
    var d := DecimalString(n);
    var p := PaddedDigits(n);
    DecimalStringValue(n);
    assert p == p[..|p| - |d|] + d;
    ValueIgnoresLeadingZeros(p[..|p| - |d|], d);
  }

  /**
   * The rendering is faithful: negative times show as zero, and otherwise
   * the minutes times sixty plus the two-digit seconds give back the time.
   */
  lemma FormatTimeRoundTrip(sec: int)
    ensures ParseClock(FormatTime(sec)) == Some(Max(0, sec))
  {
    var s := Max(0, sec);
    ClockfaceRoundTrip(s / 60, s % 60);
  }

  lemma ClockfaceRoundTrip(minutes: nat, seconds: nat)
    requires seconds < 60
    ensures ParseClock(Clockface(minutes, seconds)) == Some(minutes * 60 + seconds)
  {
    var t := Clockface(minutes, seconds);
    MinutesValue(t, minutes);
    SecondsValue(t, seconds);
    ParseClockOf(t, minutes, seconds);
  }

  lemma MinutesValue(t: string, minutes: nat)
    requires |t| >= 3 && t[..|t| - 3] == PaddedDigits(minutes)
    ensures AllDigits(t[..|t| - 3]) && Value(t[..|t| - 3]) == minutes
  {
    PaddedValue(minutes);
  }

  lemma SecondsValue(t: string, seconds: nat)
    requires |t| >= 2 && t[|t| - 2..] == PaddedDigits(seconds)
    ensures AllDigits(t[|t| - 2..]) && Value(t[|t| - 2..]) == seconds
  {
    PaddedValue(seconds);
  }

  lemma ParseClockOf(t: string, minutes: nat, seconds: nat)
    requires |t| >= 4 && t[|t| - 3] == ':'
    requires AllDigits(t[..|t| - 3]) && AllDigits(t[|t| - 2..])
    requires Value(t[..|t| - 3]) == minutes && Value(t[|t| - 2..]) == seconds && seconds < 60
    ensures ParseClock(t) == Some(minutes * 60 + seconds)
  {
  }

  /** Zero and every negative time render as "00:00". */
  lemma FormatTimeNonPositive(sec: int)
    requires sec <= 0
    ensures FormatTime(sec) == "00:00"
  {
    assert DecimalString(0) == ['0'];
    assert PaddedDigits(0) == "00";
  }

  /** Minutes are at least two digits and carry no leading zero beyond the padding. */
  lemma FormatTimeMinutes(sec: int)
    ensures var t := FormatTime(sec); |t[..|t| - 3]| >= 2
    ensures var t := FormatTime(sec); |t[..|t| - 3]| > 2 ==> t[0] != '0'
  {
    var s := Max(0, sec);
    var t := FormatTime(sec);
    assert t[0] == t[..|t| - 3][0];
    DecimalStringValue(s / 60);
  }

  /** Distinct non-negative times never render alike. */
  lemma FormatTimeInjective(a: int, b: int)
    requires 0 <= a && 0 <= b && a != b
    ensures FormatTime(a) != FormatTime(b)
  {
    FormatTimeRoundTrip(a);
    FormatTimeRoundTrip(b);
  }
}

=== FILE: uci.dfy ===
/** Reading the engine's replies: the best-move line and the UCI move it names. */
module Uci {
  import opened Wrappers
  import opened ChessOracle
  import opened Text

  /** `s.slice(a, b)` for non-negative bounds: both are cut down to the length. */
  function Slice(s: string, a: nat, b: nat): (t: string)
    ensures b <= |s| && a <= b ==> t == s[a..b]
    ensures |t| == Max(0, Min(b, |s|) - Min(a, |s|))
  {
    var lo := Min(a, |s|);
    var hi := Min(b, |s|);
    if lo < hi then s[lo..hi] else ""
  }

  /**
   * `uciToChessJsMove` (script.js:436-442): characters 0-1 are the origin,
   * 2-3 the destination, and the fifth, if any, the promotion piece, which
   * is otherwise "q".
   */
  function UciToMove(uci: string): (m: MoveRequest)
    ensures |uci| >= 4 ==> m.from == uci[..2] && m.to == uci[2..4]
    ensures m.from == uci[..Min(2, |uci|)]
    ensures m.from + m.to == uci[..Min(4, |uci|)]
    ensures |uci| >= 5 ==> m.promotion == [uci[4]]
    ensures |uci| < 5 ==> m.promotion == "q"
  {
    var from := Slice(uci, 0, 2);
    var to := Slice(uci, 2, 4);
    assert from + to == uci[..Min(4, |uci|)];
    MoveRequest(from, to, if |uci| >= 5 then [uci[4]] else "q")
  }

  /** The UCI text of a move: origin, destination and, for a promotion, the piece letter. */
  function ToUci(m: MoveRequest, promoting: bool): string {
    m.from + m.to + (if promoting then m.promotion else "")
  }

  /**
   * Reading a well-formed UCI move gives back the move: a promotion keeps its
   * piece, any other move gets the default "q".
   */
  lemma UciRoundTrip(m: MoveRequest, promoting: bool)
    requires |m.from| == 2 && |m.to| == 2
    requires promoting ==> |m.promotion| == 1
    requires !promoting ==> m.promotion == "q"
    ensures UciToMove(ToUci(m, promoting)) == m
  {
    var u := ToUci(m, promoting);
    assert u[..2] == m.from && u[2..4] == m.to;
    if promoting {
      assert [u[4]] == m.promotion;
    }
  }

  /** The conversion reads no further than the fifth character. */
  lemma UciReadsFiveCharacters(uci: string)
    ensures ToUci(UciToMove(uci), |uci| >= 5) == uci[..Min(5, |uci|)]
  {
    if |uci| >= 5 {
      assert uci[..5] == uci[..4] + [uci[4]];
    }
  }

  /** The terminal reply of a search: a line starting "bestmove". */
  predicate IsBestMoveLine(line: string) {
    StartsWith(line, "bestmove")
  }

  /** A search-progress line, shown and otherwise ignored. */
  predicate IsInfoLine(line: string) {
    StartsWith(line, "info ")
  }

  /**
   * `line.split(" ")[1]` on a best-move line (script.js:136): the move, or
   * `None` for `undefined`.
   */
  function BestMove(line: string): (best: Option<string>)
    ensures best.Some? ==> ' ' !in best.value
    ensures best.None? <==> ' ' !in line
  {
    SecondField(line)
  }

  /** No line is both a progress line and a best-move line. */
  lemma InfoIsNotBestMove(line: string)
    requires IsInfoLine(line)
    ensures !IsBestMoveLine(line)
  {
    assert line[0] == 'i';
  }

  /** The usual reply "bestmove e2e4 ponder e7e5" names the move "e2e4". */
  lemma BestMoveOfReply(move: string, tail: string)
    requires ' ' !in move
    requires tail == [] || tail[0] == ' '
    ensures IsBestMoveLine("bestmove " + move + tail)
    ensures BestMove("bestmove " + move + tail) == Some(move)
  {
    var line := "bestmove " + move + tail;
    assert line == "bestmove" + " " + move + tail;
    SecondFieldOf("bestmove", move, tail);
    assert line[..8] == "bestmove";
  }
}

=== FILE: wrappers.dfy ===
/** Optional values; `None` stands for JavaScript's `null` and `undefined`. */
module Wrappers {

  datatype Option<+T> = None | Some(value: T)

  function Max(a: int, b: int): int { if a < b then b else a }

  function Min(a: int, b: int): int { if a < b then a else b }
}
